=== FILE: README.md ===
# Catan board engine — a Dafny model of `MapModel`

This project models the board engine of a Catan-style game: the class
`MapModel` (java/src/shared/model/map/model/MapModel.java) and the small
`Direction` string codec (java/src/shared/definitions/Direction.java).

The board is an immutable record (`MapModel.Board`) of finite maps:

- hex coordinates to terrain kinds;
- edges, keyed by the unordered pair of their endpoint coordinates, to `Edge(start, end, road)`;
- vertex coordinates to `Piece = Empty | Settlement(color) | City(color)`;
- ports, in the order the port handler iterates them;
- the dice-value index (the "pips"): each value maps to its list of hexes;
- an optional robber hex, which is `None` until the first placement;
- the cached longest-road colour;
- the setup-phase flag, which the turn logic sets from outside.

The legality predicates (`Placement.CanPlace*`) follow the source's own
evaluation order. They walk the neighbour and edge lists in order. A failed
handler lookup, which throws inside the source and is caught there, becomes
`false`, and it stops the predicate at that point: for example,
`VillagesSatisfyRoadPlacement` throwing makes `CanPlaceRoad` false without
trying the road rule. `CanPlaceRoad` and `CanPlaceSettlement` are each proved
equal to a declarative rule in module `Rules`, written with quantifiers over the
board's neighbour relation. `CanPlaceCity`, `CanPlaceRobber` and `CanPlacePip`
state their rule directly in their own contracts, as an if-and-only-if.
The mutators (`Mutation.Place*`, `Pips.PlacePip`) return either the error the
source throws or the new board. Module `Invariants` proves what every run of
accepted mutations preserves: the board stays well formed, roads are never
removed or recoloured, and pieces only upgrade. This holds whether dice values
are recorded with the code's own `PlacePip` or with `Pips.PlacePipExclusive`,
the corrected form described under "Findings". Only with the corrected form
does each hex keep at most one dice value.

Coordinate arithmetic (north, south, east, west, north-west, south-west, the
right-hand test, the six corners of a hex) lives in classes outside this
model. It is carried by the board as `Geometry.Grid`, a record of arbitrary
total functions, so every result holds for any grid geometry.

## Model

| member | source | states |
|---|---|---|
| MapModel.NewBoard | java/src/shared/model/map/model/MapModel.java:44-56 | a new board keeps the vertices and edges its handlers start with (all empty, all free of roads), has no hexes, dice values or ports, is out of setup with no robber and no longest road, and is well formed |
| MapModel.SetupPhase | java/src/shared/model/map/model/MapModel.java:63-67 | the setup flag takes the given value and nothing else on the board changes |
| MapModel.GetHex | java/src/shared/model/map/model/MapModel.java:338-342 | a hex is returned exactly when the board holds one at that coordinate, otherwise NotFound |
| MapModel.ContainsEdge | java/src/shared/model/map/model/MapModel.java:81-85 | whether an edge joins two points does not depend on which point is named first |
| MapModel.GetVertex | java/src/shared/model/map/model/MapModel.java:362-366 | a vertex, with its current piece, is returned exactly when the board holds one at that coordinate, otherwise NotFound |
| MapModel.GetEdge | java/src/shared/model/map/model/MapModel.java:350-354 | an edge is found from its endpoints given in either order, and NotFound otherwise |
| MapModel.GetRobberLocation | java/src/shared/model/map/model/MapModel.java:497-501 | once placed, the robber's hex is the one the board records |
| MapModel.GetLongestRoadColor | java/src/shared/model/map/model/MapModel.java:543-550 | the longest-road colour is returned when someone holds it, otherwise the "doesn't exist" error |
| MapModel.VerticesAt | java/src/shared/model/map/model/MapModel.java:379-392 | looking up candidate positions returns exactly the vertices the board holds there, with their current pieces |
| MapModel.VerticesAtCounts | java/src/shared/model/map/model/MapModel.java:379-392 | each vertex is returned once for every candidate position at which the board holds it, so a repeated position gives a repeated vertex and a missing one gives none |
| MapModel.GetNeighbours | java/src/shared/model/map/model/MapModel.java:402-430 | the neighbours of a vertex are exactly the existing vertices among its north, south and side positions (east for right-hand, west otherwise), at most three |
| MapModel.GetCorners | java/src/shared/model/map/model/MapModel.java:374-400 | the corners of a hex are exactly the existing vertices among its six corner positions |
| MapModel.EdgesTo | java/src/shared/model/map/model/MapModel.java:612-631 | the edges collected are exactly the existing edges from the vertex to the given neighbours |
| MapModel.GetIncidentEdges | java/src/shared/model/map/model/MapModel.java:605-634 | the edges of a vertex are exactly the existing edges joining it to a neighbour, at most three |
| Geometry.Key | java/src/shared/model/map/model/MapModel.java:81-85 | an edge key contains both endpoints and nothing else |
| Geometry.KeySymmetric | java/src/shared/model/map/model/MapModel.java:623-624 | the edge key does not depend on the order of its endpoints |
| Placement.AnyRoadOf | java/src/shared/model/map/model/MapModel.java:642-647 | the edge scan succeeds iff some edge in the list carries a road of the colour |
| Placement.HasRoadOf | java/src/shared/model/map/model/MapModel.java:641-647 | the per-endpoint road test holds iff some edge from the vertex to a neighbour carries a road of the colour |
| Placement.NoRoadTo | java/src/shared/model/map/model/MapModel.java:692-703 | the setup scan passes iff every edge to the listed neighbours exists and has no road |
| Placement.IsGoodSetup | java/src/shared/model/map/model/MapModel.java:688-710 | a vertex is a good setup vertex iff every neighbour is joined to it by an existing edge without a road |
| Placement.VillagesSatisfyRoadPlacement | java/src/shared/model/map/model/MapModel.java:665-686 | the village rule fails with NotFound exactly when the start vertex, or (start not owned) the end vertex, is missing; it holds iff the start vertex is the colour's own (and clear in setup), or the start is not and the end is (and clear in setup) |
| Placement.RoadsSatisfyRoadPlacement | java/src/shared/model/map/model/MapModel.java:636-663 | the road rule holds iff an endpoint that is empty or the colour's own, start first, touches a road of that colour; NotFound exactly when a vertex it must inspect is missing |
| Placement.CanPlaceRoad | java/src/shared/model/map/model/MapModel.java:99-129 | false for a missing edge or an edge with a road; otherwise equal to the declarative endpoint rule (village rule first, road rule only outside setup) |
| Placement.ScanNeighbours | java/src/shared/model/map/model/MapModel.java:146-165 | the neighbour loop completes iff every neighbour is empty, its edge exists, and in setup that edge has no road; it reports "road satisfied" iff also, outside setup, some such edge carries the colour's road |
| Placement.CanPlaceSettlement | java/src/shared/model/map/model/MapModel.java:131-176 | legal iff the vertex exists and is empty, every neighbour is empty and joined by an edge, and in setup no road touches it while outside setup a road of the colour does |
| Placement.CanPlaceCity | java/src/shared/model/map/model/MapModel.java:178-196 | legal iff the vertex holds a settlement of exactly that colour; false for cities, other colours and empty vertices |
| Placement.CanPlaceRobber | java/src/shared/model/map/model/MapModel.java:198-218 | legal iff the hex exists, is not water and is not where the robber stands |
| Placement.CanPlacePip | java/src/shared/model/map/model/MapModel.java:220-237 | legal iff the hex exists and is neither water nor desert |
| Mutation.PlaceRoad | java/src/shared/model/map/model/MapModel.java:245-254 | succeeds iff CanPlaceRoad holds, else fails with the road error; on success only the target edge changes, gaining the road, and the longest road is recounted on the new board |
| Mutation.PlaceSettlement | java/src/shared/model/map/model/MapModel.java:256-265 | succeeds iff CanPlaceSettlement holds; on success only the target vertex changes, to a settlement of the colour, and the longest road is recounted |
| Mutation.PlaceCity | java/src/shared/model/map/model/MapModel.java:267-274 | succeeds iff CanPlaceCity holds; on success only the target vertex changes, to a city, and the longest road is not recounted |
| Mutation.PlaceRobber | java/src/shared/model/map/model/MapModel.java:293-305 | NotFound for a missing hex and the water error for a water hex; otherwise the robber is initialized and stands on that hex, nothing else changing |
| Mutation.SetupRoadNeedsFreshVillage | java/src/shared/model/map/model/MapModel.java:114-119 | in setup, a legal road has an endpoint that the colour owns and that no road touches yet |
| Mutation.SetupStartVertexDecides | java/src/shared/model/map/model/MapModel.java:667-674 | in setup, an owned start vertex that already has a road makes the road illegal, whatever the end vertex holds |
| Mutation.RoadRuleOutsideSetup | java/src/shared/model/map/model/MapModel.java:118-122 | outside setup, with neither endpoint owned, a free edge is legal iff an endpoint that is empty or own-coloured touches a road of the colour |
| Mutation.RoadOrderIrrelevant | java/src/shared/model/map/model/MapModel.java:104-108 | road legality does not depend on the order the endpoints are given in |
| Mutation.DistanceRule | java/src/shared/model/map/model/MapModel.java:149-155 | no settlement is legal next to a vertex that holds any piece |
| Mutation.RoadIsPermanent | java/src/shared/model/map/model/MapModel.java:110-112 | after a road is placed, no colour may place a road on that edge, from either end |
| Mutation.FirstSettlementOnNewBoard | java/src/shared/model/map/model/MapModel.java:131-176 | on a new board in setup, a vertex joined by an edge to each of its neighbours takes a first settlement of any colour |
| Mutation.SetupSettlementOpensRoads | java/src/shared/model/map/model/MapModel.java:665-710 | on a well-formed board in setup, once a settlement is placed, a road of its colour is legal on every edge to a neighbour |
| Mutation.SettlementCanBecomeCity | java/src/shared/model/map/model/MapModel.java:186-189 | a settlement just placed may be upgraded to a city by its owner |
| Mutation.CityIsFinal | java/src/shared/model/map/model/MapModel.java:143-144 | after a city is placed, no colour may place a city or a settlement on that vertex |
| Mutation.RobberPlacementAgrees | java/src/shared/model/map/model/MapModel.java:294-305 | PlaceRobber succeeds iff CanPlaceRobber holds or the robber is already on that hex; afterwards CanPlaceRobber is false there |
| Pips.RemoveFirst | java/src/shared/model/map/model/MapModel.java:322 | removing a listed hex drops exactly one occurrence of it |
| Pips.PipList | java/src/shared/model/map/model/MapModel.java:317-328 | the list update, removal and re-entry included, equals the list with every copy of the hex removed, followed by the hex once |
| Pips.PipListIdempotent | java/src/shared/model/map/model/MapModel.java:320-324 | applying the list update twice gives the same list as applying it once |
| Pips.PipListCounts | java/src/shared/model/map/model/MapModel.java:317-335 | after the update the hex is listed exactly once, last, and every other hex is listed as often as before |
| Pips.PlacePip | java/src/shared/model/map/model/MapModel.java:307-336 | values outside 2..12 leave the board unchanged; a missing hex is NotFound; otherwise the hex is listed exactly once for the value, other hexes and other values are untouched |
| Pips.PlacePipIdempotent | java/src/shared/model/map/model/MapModel.java:317-324 | recording the same value on the same hex again leaves the board as the first call left it |
| Pips.PipIgnoresCanPlacePip | java/src/shared/model/map/model/MapModel.java:307-336 | a desert or water hex, for which CanPlacePip is false, still takes a dice value |
| Pips.SevenIsRecorded | java/src/shared/model/map/model/MapModel.java:310-313 | the value 7 is not filtered: a hex recorded for 7 is listed for 7 |
| Pips.HexUnderTwoValues | java/src/shared/model/map/model/MapModel.java:317-328 | recording a hex under one value and then under another leaves it listed under both, so the dice index no longer gives each hex a single value |
| Pips.PlacePipExclusive | java/src/shared/model/map/model/MapModel.java:307-336 | the corrected update: same filter and NotFound as PlacePip; on success the hex is listed exactly once for the value and under no other value, and every other hex is listed under every value as often as before |
| Pips.ExclusiveKeepsSingleValued | java/src/shared/model/map/model/MapModel.java:317-320 | with the corrected update, a board whose hexes each have at most one dice value keeps that |
| Queries.PortsOf | java/src/shared/model/map/model/MapModel.java:472-486 | every kind reported belongs to a port with an endpoint owned by the colour; when every port's endpoints exist, every such port is reported |
| Queries.GetPorts | java/src/shared/model/map/model/MapModel.java:465-495 | the port kinds reported are those of ports the colour has a piece beside, all of them when every port edge's endpoints exist |
| Queries.PortsStopAtMissingVertex | java/src/shared/model/map/model/MapModel.java:478-492 | a port whose edge lacks an endpoint vertex ends the scan: ports after it are never reported |
| Queries.HexTypesAt | java/src/shared/model/map/model/MapModel.java:512-526 | the kinds collected are exactly those of existing hexes at the given positions |
| Queries.HexTypesAtCounts | java/src/shared/model/map/model/MapModel.java:512-526 | each kind is collected once for every given position that holds a hex of that kind |
| Queries.GetResources | java/src/shared/model/map/model/MapModel.java:503-535 | a vertex's resources are exactly the kinds of the existing hexes touching it (west, north, south for a right-hand vertex; itself, north-west, south-west otherwise), at most three |
| Queries.GetResourcesCounts | java/src/shared/model/map/model/MapModel.java:503-535 | a vertex collects a kind once for every touching hex of that kind |
| Queries.PayoutsAt | java/src/shared/model/map/model/MapModel.java:564-578 | the payouts of a corner list are exactly the hex's kind paired with the piece of each occupied corner; empty corners pay nothing |
| Queries.PayoutsAtCounts | java/src/shared/model/map/model/MapModel.java:564-578 | each payout appears once for every occupied corner whose piece earns it |
| Queries.PayoutsOf | java/src/shared/model/map/model/MapModel.java:559-579 | the hex loop of GetTransactions, the hex-by-hex concatenation of corner payouts; its contract is stated by PayoutsOfMembers, PayoutsOfConcat and PayoutsOfCounts |
| Queries.PayoutsOfMembers | java/src/shared/model/map/model/MapModel.java:560-579 | the payouts of a hex list are exactly those of its hexes |
| Queries.PayoutsOfConcat | java/src/shared/model/map/model/MapModel.java:560-579 | the payouts of two hex lists joined are the payouts of the first followed by those of the second |
| Queries.PayoutsOfCounts | java/src/shared/model/map/model/MapModel.java:560-579 | each payout appears as often as the hexes owe it, summed hex by hex over their occupied corners |
| Queries.GetTransactions | java/src/shared/model/map/model/MapModel.java:552-589 | a payout is produced iff a piece stands on a corner of a hex listed for the roll; an unknown roll produces none |
| Queries.GetTransactionsCounts | java/src/shared/model/map/model/MapModel.java:552-589 | a roll produces each payout once per occupied corner earning it, for every hex listed for the roll; an unknown roll produces none |
| Queries.GetOccupiedVertices | java/src/shared/model/map/model/MapModel.java:432-457 | a colour is reported iff it has a piece on a corner of the hex; a missing hex reports none |
| Invariants.AsWrittenPipKeepsWellFormed | java/src/shared/model/map/model/MapModel.java:307-336 | recording a pip with the code's own PlacePip keeps every dice value in 2..12, every list free of repeats and every listed hex on the board |
| Invariants.PipKeepsWellFormed | java/src/shared/model/map/model/MapModel.java:307-336 | recording a pip with the corrected update keeps every dice value in 2..12, every list free of repeats and every listed hex on the board |
| Invariants.ApplyKeepsWellFormed | java/src/shared/model/map/model/MapModel.java:245-336 | every accepted mutation, with either the code's PlacePip or the corrected pip update, keeps edges stored under their own endpoints, the pips well formed and the robber on a land hex |
| Invariants.ApplyKeepsSingleValued | java/src/shared/model/map/model/MapModel.java:245-336 | with the corrected pip update, every accepted mutation keeps each hex under at most one dice value (the code's own PlacePip breaks this, see Pips.HexUnderTwoValues) |
| Invariants.ApplyGrows | java/src/shared/model/map/model/MapModel.java:245-305 | every accepted mutation, with either pip update, keeps hexes, ports, edges and vertices, never removes or recolours a road, and only upgrades pieces |
| Invariants.RunKeepsInvariants | java/src/shared/model/map/model/MapModel.java:245-336 | any run of accepted mutations, with either pip update, keeps the board well formed and only builds on it; with the corrected pip update it also keeps each hex under at most one dice value |
| Directions.ToString | java/src/shared/definitions/Direction.java:7-22 | every direction has a one- or two-letter lower-case code, never "unknown" |
| Directions.LowerChar | java/src/shared/definitions/Direction.java:26 | each upper-case ASCII letter becomes the same letter in lower case, and every other character is kept |
| Directions.Lower | java/src/shared/definitions/Direction.java:26 | lower-casing keeps the length and lower-cases each character |
| Directions.FromString | java/src/shared/definitions/Direction.java:24-40 | decodes to a direction iff the lower-cased string is that direction's code, and to null for every other string |
| Directions.RoundTrip | java/src/shared/definitions/Direction.java:7-40 | decoding the code of a direction returns that direction |
| Directions.ToStringInjective | java/src/shared/definitions/Direction.java:9-18 | distinct directions have distinct codes |
| Directions.UpperCaseDecodes | java/src/shared/definitions/Direction.java:24-40 | each direction's code written in capitals decodes to that direction |
| Directions.CaseInsensitive | java/src/shared/definitions/Direction.java:26 | decoding a string and decoding its lower-cased form agree |

## Notable behaviour of the code

Four behaviours of the code are easy to miss:

- PlacePip recording the same (value, hex) twice does not remove the hex. The code removes it and then calls itself again, which appends it again. The hex stays listed once, at the end of the list (`Pips.PlacePipIdempotent`).
- PlacePip ignores only values below 2 or above 12. The value 7 is accepted (`Pips.SevenIsRecorded`).
- PlacePip does not consult CanPlacePip, so desert and water hexes can be given values (`Pips.PipIgnoresCanPlacePip`).
- PlaceRobber rejects only missing and water hexes. It does not reject the hex the robber already stands on; only CanPlaceRobber does (`Mutation.RobberPlacementAgrees`).

## Findings

| source | as written | input that shows it | evidently intended | confidence | as-written member | corrected member |
|---|---|---|---|---|---|---|
| java/src/shared/model/map/model/MapModel.java:317-328 | PlacePip looks for the hex only in the list of the value being recorded, although the comment there says the branch is for changing a hex's value | PlacePip(8, p) followed by PlacePip(6, p) on a board holding a hex at p: the hex is then listed under both 8 and 6 and produces on either roll | changing a hex's value takes it off the list of its old value, so each hex has at most one value | medium, not executed | Pips.HexUnderTwoValues (about Pips.PlacePip) | Pips.PlacePipExclusive with Pips.ExclusiveKeepsSingleValued |

`Mutation`, `Pips.PlacePip` and the lemmas about it model the code as written.
`Invariants.Apply` and `Invariants.Run` take a flag choosing between the two pip
updates. The well-formedness and growth lemmas hold for both; the
one-value-per-hex lemmas hold for the corrected one.

## Left out

- The longest-road computation (`RoadCounter`) is not part of this model. It is the parameter `count`, an arbitrary function of the board it runs on: after the road or settlement is placed, before the new holder is stored. No tie-breaking behaviour is assumed.
- Coordinate arithmetic and the Hex corner accessors are not part of this model. They are the arbitrary functions of `Geometry.Grid`.
- The handler classes are not part of this model. They are finite maps, and Hex and Robber equality are taken to be structural.
- Board construction (`PlaceHex` at lines 239-243 and `PlacePort` at lines 276-291) is left out. Their handlers' duplicate-insert behaviour is not visible in the source. The lemmas about mutations start from any board satisfying `MapModel.WellFormed`.
- MapModel.NewBoard: the vertex and edge handlers are constructed at lines 51-52, but their contents are not part of this model, and MapModel itself never adds a vertex or an edge. `NewBoard` therefore takes the handlers' initial vertices and edges as parameters. It requires every vertex to be empty and every edge to carry no road and to be stored under the key of its endpoints.
- The whole-collection iterators `GetHexes`, `GetEdges()`, `GetVertices()`, `GetPorts()` and `GetPips` are left out. They expose the maps directly.
- The trivial accessors `IsSetup`, `IsRobberInitialized` (a predicate used in contracts, without a row), `LongestRoadExists`, `ContainsVertex` and `ContainsHex` have no contract of their own. They read a field or test map membership.
- `hashCode`, `equals` and `printStackTrace` are left out.
- `Placement.CanPlaceRobber`: requires the robber to be placed whenever the hex exists, because the source dereferences a null robber there.
- `MapModel.GetRobberLocation`: requires the robber to be placed, for the same reason.
- The colour and port-type constants are not part of this model. `Color` and `PortType` are opaque tags. Hex kinds are the terrain names plus Desert and Water.
- Ports are taken in the port handler's iteration order, whatever that order is.
- Queries.GetPorts: states completeness only when every port edge's endpoints exist. `Queries.PortsStopAtMissingVertex` covers the other case.
- Directions.LowerChar: lower-cases ASCII letters only, not all of Unicode. No other character lower-cases to n, e, s or w, so decoding is unaffected.
- Directions.FromString: the source's `assert false` before returning null is not modelled. It throws only when Java assertions are enabled. A null argument is not modelled either.

=== FILE: direction.dfy ===
/** The Direction enumeration and its string codes. */
module Directions {
  import opened Results

  datatype Direction = NW | N | NE | SW | S | SE | W | E

  /** Direction.toString: the lower-case compass code of a direction. */
  function ToString(d: Direction): (s: string)
    ensures 1 <= |s| <= 2
    ensures s != "unknown"
    ensures Lower(s) == s
  {
    match d
    case NW => "nw"
    case N => "n"
    case NE => "ne"
    case SW => "sw"
    case S => "s"
    case SE => "se"
    case W => "w"
    case E => "e"
  }

  /** Character.toLowerCase restricted to ASCII letters; other characters are kept.
      No other character lower-cases to one of the letters n, e, s, w. */
  function LowerChar(ch: char): (r: char)
    ensures 'A' <= ch <= 'Z' ==> 'a' <= r <= 'z' && r as int - 'a' as int == ch as int - 'A' as int
    ensures !('A' <= ch <= 'Z') ==> r == ch
  {
    if 'A' <= ch <= 'Z' then (ch as int - 'A' as int + 'a' as int) as char else ch
  }

  /** String.toLowerCase, character by character. */
  function Lower(s: string): (r: string)
    ensures |r| == |s|
    ensures forall i :: 0 <= i < |s| ==> r[i] == LowerChar(s[i])
  {
    seq(|s|, i requires 0 <= i < |s| => LowerChar(s[i]))
  }

  /** Direction.fromString: the direction whose code is the lower-cased `s`;
      `None` (the source's null) for any other string. */
  function FromString(s: string): (r: Option<Direction>)
    ensures forall d :: r == Some(d) <==> Lower(s) == ToString(d)
    ensures r.None? <==> forall d :: Lower(s) != ToString(d)
  {
    var l := Lower(s);
    if l == "nw" then Some(NW)
    else if l == "n" then Some(N)
    else if l == "ne" then Some(NE)
    else if l == "sw" then Some(SW)
    else if l == "s" then Some(S)
    else if l == "se" then Some(SE)
    else if l == "w" then Some(W)
    else if l == "e" then Some(E)
    else None
  }

  /** Decoding the code of a direction gives that direction back. */
  lemma RoundTrip(d: Direction)
    ensures FromString(ToString(d)) == Some(d)
  {
  }

  /** Distinct directions have distinct codes. */
  lemma ToStringInjective(d1: Direction, d2: Direction)
    requires ToString(d1) == ToString(d2)
    ensures d1 == d2
  {
  }

  lemma LowerIdempotent(s: string)
    ensures Lower(Lower(s)) == Lower(s)
  {
  }

  /** Decoding ignores letter case. */
  lemma CaseInsensitive(s: string)
    ensures FromString(s) == FromString(Lower(s))
  {
    LowerIdempotent(s);
  }

  /** The ASCII upper-case form of a character, the inverse of LowerChar on letters. */
  function UpperChar(ch: char): (r: char)
    ensures 'a' <= ch <= 'z' ==> 'A' <= r <= 'Z' && LowerChar(r) == ch
    ensures !('a' <= ch <= 'z') ==> r == ch
  {
    if 'a' <= ch <= 'z' then (ch as int - 'a' as int + 'A' as int) as char else ch
  }

  function Upper(s: string): (r: string)
    ensures |r| == |s|
    ensures forall i :: 0 <= i < |s| ==> r[i] == UpperChar(s[i])
  {
    seq(|s|, i requires 0 <= i < |s| => UpperChar(s[i]))
  }

  /** Each direction's code written in capitals ("NW", "N", ...) decodes to it. */
  lemma UpperCaseDecodes(d: Direction)
    ensures FromString(Upper(ToString(d))) == Some(d)
  {
  }
}

=== FILE: geometry.dfy ===
/** Coordinates of the board's grid.

    The arithmetic that turns a coordinate into its neighbours (north, south,
    east, ...) and a hex coordinate into its six corners belongs to classes
    that are not part of this model. It is therefore carried as a `Grid`
    record of arbitrary total functions: every property proved here holds
    for every choice of them. */
module Geometry {

  datatype Coordinate = Coordinate(x: int, y: int)

  datatype Grid = Grid(
    north: Coordinate -> Coordinate,
    south: Coordinate -> Coordinate,
    east: Coordinate -> Coordinate,
    west: Coordinate -> Coordinate,
    northWest: Coordinate -> Coordinate,
    southWest: Coordinate -> Coordinate,
    isRightHand: Coordinate -> bool,
    // corners of the hex at a coordinate
    topLeft: Coordinate -> Coordinate,
    left: Coordinate -> Coordinate,
    bottomLeft: Coordinate -> Coordinate,
    bottomRight: Coordinate -> Coordinate,
    right: Coordinate -> Coordinate,
    topRight: Coordinate -> Coordinate)

  /** The third neighbour of a vertex: east of a right-hand vertex, west otherwise. */
  function Side(g: Grid, p: Coordinate): Coordinate
  {
    if g.isRightHand(p) then g.east(p) else g.west(p)
  }

  /** The positions that may hold a neighbour of the vertex at `p`, in lookup order. */
  function VertexCandidates(g: Grid, p: Coordinate): seq<Coordinate>
  {
    [g.north(p), g.south(p), Side(g, p)]
  }

  /** The positions that may hold a corner of the hex at `h`, in lookup order. */
  function CornerCandidates(g: Grid, h: Coordinate): seq<Coordinate>
  {
    [g.topLeft(h), g.left(h), g.bottomLeft(h), g.bottomRight(h), g.right(h), g.topRight(h)]
  }

  /** The positions of the hexes that touch the vertex at `p`, in lookup order. */
  function ResourceCandidates(g: Grid, p: Coordinate): seq<Coordinate>
  {
    if g.isRightHand(p) then [g.west(p), g.north(p), g.south(p)]
    else [p, g.northWest(p), g.southWest(p)]
  }

  /** An edge is found from its two endpoints given in either order. */
  type EdgeKey = set<Coordinate>

  function Key(p1: Coordinate, p2: Coordinate): (k: EdgeKey)
    ensures p1 in k && p2 in k
    ensures forall q :: q in k ==> q == p1 || q == p2
  {
    {p1, p2}
  }

  lemma KeySymmetric(p1: Coordinate, p2: Coordinate)
    ensures Key(p1, p2) == Key(p2, p1)
  {
  }
}

=== FILE: invariants.dfy ===
/** The board's invariants across every mutation the turn logic can request. */
module Invariants {
  import opened Results
  import opened Geometry
  import opened MapObjects
  import opened MapModel
  import opened Placement
  import opened Mutation
  import opened Pips

  /** The mutations MapModel accepts once the board is built. */
  datatype Action =
    | SetSetup(on: bool)
    | BuildRoad(p1: Coordinate, p2: Coordinate, c: Color)
    | BuildSettlement(p: Coordinate, c: Color)
    | BuildCity(p: Coordinate, c: Color)
    | MoveRobber(p: Coordinate)
    | RecordPip(value: int, p: Coordinate)

  /** One mutation. A dice value is recorded with the code's own PlacePip, or with
      the corrected PlacePipExclusive when `corrected` is set. */
  function Apply(b: Board, a: Action, count: RoadCounter, corrected: bool): Result<Board>
  {
    match a
    case SetSetup(on) => Ok(SetupPhase(b, on))
    case BuildRoad(p1, p2, c) => PlaceRoad(b, p1, p2, c, count)
    case BuildSettlement(p, c) => PlaceSettlement(b, p, c, count)
    case BuildCity(p, c) => PlaceCity(b, p, c)
    case MoveRobber(p) => PlaceRobber(b, p)
    case RecordPip(value, p) =>
      if corrected then PlacePipExclusive(b, value, p) else PlacePip(b, value, p)
  }

  /** Applies the actions in order, stopping at the first one that throws. */
  function Run(b: Board, actions: seq<Action>, count: RoadCounter, corrected: bool): Result<Board>
    decreases |actions|
  {
    if actions == [] then Ok(b)
    else
      match Apply(b, actions[0], count, corrected)
      case Err(e) => Err(e)
      case Ok(b') => Run(b', actions[1..], count, corrected)
  }

  /** A vertex's piece only grows: anything may replace an empty vertex, and a
      settlement may only become a city of its own colour. */
  predicate Upgrade(before: Piece, after: Piece)
  {
    before == after || before.Empty? || (before.Settlement? && after == City(before.color))
  }

  /** `r` is `b` with more built on it: the same hexes, ports, edges and vertices,
      every road still in place with its colour, every piece kept or upgraded. */
  ghost predicate Grows(b: Board, r: Board)
  {
    && r.grid == b.grid
    && r.hexes == b.hexes
    && r.ports == b.ports
    && r.edges.Keys == b.edges.Keys
    && r.vertices.Keys == b.vertices.Keys
    && (forall k :: k in b.edges ==>
          && r.edges[k].start == b.edges[k].start
          && r.edges[k].end == b.edges[k].end
          && (b.edges[k].road.Some? ==> r.edges[k].road == b.edges[k].road))
    && (forall p :: p in b.vertices ==> Upgrade(b.vertices[p], r.vertices[p]))
  }

  lemma GrowsTransitive(b1: Board, b2: Board, b3: Board)
    requires Grows(b1, b2) && Grows(b2, b3)
    ensures Grows(b1, b3)
  {
  }

  /** The code's own PlacePip keeps the board well formed: only the recorded
      value's list changes, and it gains the hex once and loses nothing else. */
  lemma AsWrittenPipKeepsWellFormed(b: Board, value: int, p: Coordinate)
    requires WellFormed(b) && PlacePip(b, value, p).Ok?
    ensures WellFormed(PlacePip(b, value, p).value)
  {
    if 2 <= value <= 12 {
      var b' := PlacePip(b, value, p).value;
      var hex := Hex(p, b.hexes[p]);
      var l := b'.values[value];
      assert Distinct(l) by {
        forall x ensures multiset(l)[x] <= 1 {
          if x != hex {
            assert multiset(Listed(b, value))[x] <= 1;
          }
        }
      }
      forall i | 0 <= i < |l|
        ensures OnBoard(b', l[i])
      {
        if l[i] != hex {
          assert multiset(Listed(b, value))[l[i]] > 0;
          assert l[i] in Listed(b, value);
          var j :| 0 <= j < |Listed(b, value)| && Listed(b, value)[j] == l[i];
          assert OnBoard(b, b.values[value][j]);
        }
      }
    }
  }

  /** The corrected update keeps the board well formed too. */
  lemma PipKeepsWellFormed(b: Board, value: int, p: Coordinate)
    requires WellFormed(b) && PlacePipExclusive(b, value, p).Ok?
    ensures WellFormed(PlacePipExclusive(b, value, p).value)
  {
    if 2 <= value <= 12 {
      var b' := PlacePipExclusive(b, value, p).value;
      var hex := Hex(p, b.hexes[p]);
      forall v | v in b'.values
        ensures 2 <= v <= 12 && Distinct(b'.values[v])
        ensures forall i :: 0 <= i < |b'.values[v]| ==> OnBoard(b', b'.values[v][i])
      {
        var l := b'.values[v];
        assert Distinct(l) by {
          forall x ensures multiset(l)[x] <= 1 {
            if x != hex {
              assert multiset(l)[x] == multiset(Listed(b, v))[x];
            }
          }
        }
        forall i | 0 <= i < |l|
          ensures OnBoard(b', l[i])
        {
          if l[i] != hex {
            assert multiset(Listed(b, v))[l[i]] > 0;
            assert l[i] in Listed(b, v);
            var j :| 0 <= j < |Listed(b, v)| && Listed(b, v)[j] == l[i];
            assert OnBoard(b, b.values[v][j]);
          }
        }
      }
    }
  }

  /** Every accepted action keeps the board well formed. */
  lemma ApplyKeepsWellFormed(b: Board, a: Action, count: RoadCounter, corrected: bool)
    requires WellFormed(b) && Apply(b, a, count, corrected).Ok?
    ensures WellFormed(Apply(b, a, count, corrected).value)
  {
    match a
    case RecordPip(value, p) =>
      if corrected {
        PipKeepsWellFormed(b, value, p);
      } else {
        AsWrittenPipKeepsWellFormed(b, value, p);
      }
    case BuildRoad(p1, p2, c) =>
      var b' := PlaceRoad(b, p1, p2, c, count).value;
      forall k | k in b'.edges
        ensures k == Key(b'.edges[k].start, b'.edges[k].end)
      {
        assert k in b.edges;
      }
    case _ =>
  }

  /** With the corrected pip update, every accepted action keeps each hex under
      at most one dice value. (The code's own PlacePip does not: see
      Pips.HexUnderTwoValues.) */
  lemma ApplyKeepsSingleValued(b: Board, a: Action, count: RoadCounter)
    requires SingleValued(b) && Apply(b, a, count, true).Ok?
    ensures SingleValued(Apply(b, a, count, true).value)
  {
    match a
    case RecordPip(value, p) => ExclusiveKeepsSingleValued(b, value, p);
    case _ => assert Apply(b, a, count, true).value.values == b.values;
  }

  /** Every accepted action only builds on the board. */
  lemma ApplyGrows(b: Board, a: Action, count: RoadCounter, corrected: bool)
    requires Apply(b, a, count, corrected).Ok?
    ensures Grows(b, Apply(b, a, count, corrected).value)
  {
    var r := Apply(b, a, count, corrected).value;
    match a
    case RecordPip(value, p) =>
      assert r.(values := b.values) == b;
    case SetSetup(on) =>
    case BuildRoad(p1, p2, c) =>
    case BuildSettlement(p, c) =>
    case BuildCity(p, c) =>
    case MoveRobber(p) =>
  }

  /** Any run of accepted actions, with either pip update, keeps the board well
      formed and only builds on it: roads are never removed or recoloured and
      cities never revert. With the corrected pip update, a board whose hexes
      each have at most one dice value also keeps that. */
  lemma {:induction false} RunKeepsInvariants(b: Board, actions: seq<Action>, count: RoadCounter, corrected: bool)
    requires WellFormed(b) && Run(b, actions, count, corrected).Ok?
    ensures WellFormed(Run(b, actions, count, corrected).value)
    ensures Grows(b, Run(b, actions, count, corrected).value)
    ensures corrected && SingleValued(b) ==> SingleValued(Run(b, actions, count, corrected).value)
    decreases |actions|
  {
    if actions != [] {
      var b' := Apply(b, actions[0], count, corrected).value;
      ApplyKeepsWellFormed(b, actions[0], count, corrected);
      if corrected && SingleValued(b) {
        ApplyKeepsSingleValued(b, actions[0], count);
      }
      ApplyGrows(b, actions[0], count, corrected);
      RunKeepsInvariants(b', actions[1..], count, corrected);
      GrowsTransitive(b, b', Run(b', actions[1..], count, corrected).value);
    }
  }
}

=== FILE: mapmodel.dfy ===
/** The board state of MapModel and its read-only queries.

    The hex, vertex and edge handlers become finite maps, the port handler a
    sequence in its iteration order, and the robber an optional hex that is
    `None` until the first placement. */
module MapModel {
  import opened Results
  import opened Geometry
  import opened MapObjects

  datatype Board = Board(
    grid: Grid,
    setup: bool,                     // pushed in from the turn logic
    values: map<int, seq<Hex>>,      // dice value to the hexes that produce on it
    hexes: map<Coordinate, HexType>,
    edges: map<EdgeKey, Edge>,
    vertices: map<Coordinate, Piece>,
    ports: seq<Port>,
    longestRoad: Option<Color>,
    robber: Option<Hex>)

  /** A new board over the vertices and edges its handlers start with: every
      vertex empty, every edge free of roads and stored under the key of its own
      endpoints. No hexes, dice values or ports yet, not in setup, no robber and
      no longest road. */
  function NewBoard(grid: Grid, vertices: map<Coordinate, Piece>, edges: map<EdgeKey, Edge>): (b: Board)
    requires forall p :: p in vertices ==> vertices[p].Empty?
    requires forall k :: k in edges ==> edges[k].road.None? && k == Key(edges[k].start, edges[k].end)
    ensures !b.setup && b.robber.None? && b.longestRoad.None?
    ensures b.vertices == vertices && b.edges == edges
    ensures b.hexes == map[] && b.values == map[] && b.ports == []
    ensures WellFormed(b)
  {
    Board(grid, false, map[], map[], edges, vertices, [], None, None)
  }

  function SetupPhase(b: Board, setup: bool): (r: Board)
    ensures r.setup == setup
    ensures r.(setup := b.setup) == b
  {
    b.(setup := setup)
  }

  predicate IsRobberInitialized(b: Board) { b.robber.Some? }

  /** Whether an edge joins `p1` and `p2`, whichever endpoint is named first. */
  function ContainsEdge(b: Board, p1: Coordinate, p2: Coordinate): (r: bool)
    ensures r <==> Key(p1, p2) in b.edges
    ensures r <==> Key(p2, p1) in b.edges
  {
    KeySymmetric(p1, p2);
    Key(p1, p2) in b.edges
  }

  /** A hex that the hex handler holds, as the handler returns it. */
  ghost predicate OnBoard(b: Board, h: Hex)
  {
    h.point in b.hexes && b.hexes[h.point] == h.kind
  }

  function GetHex(b: Board, p: Coordinate): (r: Result<Hex>)
    ensures r.Ok? <==> p in b.hexes
    ensures r.Ok? ==> r.value.point == p && OnBoard(b, r.value)
    ensures r.Err? ==> r.error == NotFound
  {
    if p in b.hexes then Ok(Hex(p, b.hexes[p])) else Err(NotFound)
  }

  function GetVertex(b: Board, p: Coordinate): (r: Result<Vertex>)
    ensures r.Ok? <==> p in b.vertices
    ensures r.Ok? ==> r.value.point == p && r.value.piece == b.vertices[p]
    ensures r.Err? ==> r.error == NotFound
  {
    if p in b.vertices then Ok(Vertex(p, b.vertices[p])) else Err(NotFound)
  }

  function GetEdge(b: Board, p1: Coordinate, p2: Coordinate): (r: Result<Edge>)
    ensures r.Ok? <==> ContainsEdge(b, p1, p2)
    ensures r.Ok? ==> r.value == b.edges[Key(p1, p2)]
    ensures r.Ok? <==> ContainsEdge(b, p2, p1)
    ensures r.Ok? ==> r.value == b.edges[Key(p2, p1)]
    ensures r.Err? ==> r.error == NotFound
  {
    KeySymmetric(p1, p2);
    if Key(p1, p2) in b.edges then Ok(b.edges[Key(p1, p2)]) else Err(NotFound)
  }

  function GetRobberLocation(b: Board): (h: Hex)
    requires IsRobberInitialized(b)
    ensures b.robber == Some(h)
  {
    b.robber.value
  }

  function GetLongestRoadColor(b: Board): (r: Result<Color>)
    ensures r.Ok? <==> b.longestRoad.Some?
    ensures r.Ok? ==> b.longestRoad == Some(r.value)
    ensures r.Err? ==> r.error == NoLongestRoad
  {
    if b.longestRoad.Some? then Ok(b.longestRoad.value) else Err(NoLongestRoad)
  }

  /** The neighbour relation the board uses: `q` holds a vertex and is one of
      the candidate positions around `p`. */
  ghost predicate Adjacent(b: Board, p: Coordinate, q: Coordinate)
  {
    q in b.vertices && q in VertexCandidates(b.grid, p)
  }

  /** The indices of the positions among `qs` at which the handler holds the vertex `v`. */
  ghost function PositionsOf(vs: map<Coordinate, Piece>, qs: seq<Coordinate>, v: Vertex): set<int>
  {
    set i | 0 <= i < |qs| && qs[i] in vs && Vertex(qs[i], vs[qs[i]]) == v
  }

  /** The vertices the handler holds at the positions `qs`, in order, skipping absent
      ones: one entry for each position that holds a vertex. */
  function VerticesAt(vs: map<Coordinate, Piece>, qs: seq<Coordinate>): (r: seq<Vertex>)
    ensures |r| <= |qs|
    ensures forall v :: v in r <==> v.point in qs && v.point in vs && v.piece == vs[v.point]
  {
    if qs == [] then []
    else
      var n := |qs| - 1;
      var init := VerticesAt(vs, qs[..n]);
      var last := if qs[n] in vs then [Vertex(qs[n], vs[qs[n]])] else [];
      assert forall q :: q in qs <==> q in qs[..n] || q == qs[n] by {
        assert qs == qs[..n] + [qs[n]];
      }
      init + last
  }

  /** VerticesAt lists each vertex once for every position of `qs` that holds it. */
  lemma {:induction false} VerticesAtCounts(vs: map<Coordinate, Piece>, qs: seq<Coordinate>, v: Vertex)
    ensures multiset(VerticesAt(vs, qs))[v] == |PositionsOf(vs, qs, v)|
    decreases |qs|
  {
    if qs != [] {
      var n := |qs| - 1;
      VerticesAtCounts(vs, qs[..n], v);
      var last := if qs[n] in vs then [Vertex(qs[n], vs[qs[n]])] else [];
      assert VerticesAt(vs, qs) == VerticesAt(vs, qs[..n]) + last;
      assert multiset(VerticesAt(vs, qs)) == multiset(VerticesAt(vs, qs[..n])) + multiset(last);
      PositionsLast(vs, qs, v);
    }
  }

  /** Extending `qs` by one position adds that position's index exactly when it holds `v`. */
  lemma PositionsLast(vs: map<Coordinate, Piece>, qs: seq<Coordinate>, v: Vertex)
    requires qs != []
    ensures var n := |qs| - 1;
      |PositionsOf(vs, qs, v)|
      == |PositionsOf(vs, qs[..n], v)| + (if qs[n] in vs && Vertex(qs[n], vs[qs[n]]) == v then 1 else 0)
  {
    var n := |qs| - 1;
    var before := PositionsOf(vs, qs[..n], v);
    var all := PositionsOf(vs, qs, v);
    if qs[n] in vs && Vertex(qs[n], vs[qs[n]]) == v {
      assert all == before + {n};
    } else {
      assert all == before;
    }
  }

  /** GetVertices(Vertex): the neighbours of the vertex at `p` that exist. */
  function GetNeighbours(b: Board, p: Coordinate): (r: seq<Vertex>)
    ensures |r| <= 3
    ensures forall v :: v in r <==> Adjacent(b, p, v.point) && v.piece == b.vertices[v.point]
  {
    VerticesAt(b.vertices, VertexCandidates(b.grid, p))
  }

  /** GetVertices(Hex): the corners of the hex at `h` that exist. */
  function GetCorners(b: Board, h: Coordinate): (r: seq<Vertex>)
    ensures |r| <= 6
    ensures forall v :: v in r <==>
      v.point in CornerCandidates(b.grid, h) && v.point in b.vertices && v.piece == b.vertices[v.point]
  {
    VerticesAt(b.vertices, CornerCandidates(b.grid, h))
  }

  /** The edges from `p` to each of the vertices `ns` that the edge handler holds. */
  function EdgesTo(es: map<EdgeKey, Edge>, p: Coordinate, ns: seq<Vertex>): (r: seq<Edge>)
    ensures |r| <= |ns|
    ensures forall e :: e in r <==>
      exists v :: v in ns && Key(p, v.point) in es && es[Key(p, v.point)] == e
  {
    if ns == [] then []
    else
      var rest := EdgesTo(es, p, ns[1..]);
      assert forall v :: v in ns <==> v == ns[0] || v in ns[1..];
      var k := Key(p, ns[0].point);
      if k in es then [es[k]] + rest else rest
  }

  /** GetEdges(Vertex): the edges that join the vertex at `p` to its neighbours. */
  function GetIncidentEdges(b: Board, p: Coordinate): (r: seq<Edge>)
    ensures |r| <= 3
    ensures forall e :: e in r <==>
      exists q :: Adjacent(b, p, q) && Key(p, q) in b.edges && b.edges[Key(p, q)] == e
  {
    var ns := GetNeighbours(b, p);
    var r := EdgesTo(b.edges, p, ns);
    assert forall q :: Adjacent(b, p, q) ==> Vertex(q, b.vertices[q]) in ns;
    r
  }

  /** Structural facts assumed of the maps a board is given, and kept by every operation:
      each edge is stored under the key of its own endpoints, each dice value is a
      roll of two dice listing board hexes at most once, and the robber stands on a
      land hex of the board. */
  ghost predicate WellFormed(b: Board)
  {
    && (forall k :: k in b.edges ==> k == Key(b.edges[k].start, b.edges[k].end))
    && (forall v :: v in b.values ==> 2 <= v <= 12 && Distinct(b.values[v]))
    && (forall v, i :: v in b.values && 0 <= i < |b.values[v]| ==> OnBoard(b, b.values[v][i]))
    && (b.robber.Some? ==> OnBoard(b, b.robber.value) && b.robber.value.kind != Water)
  }

  /** No hex is listed twice. */
  ghost predicate Distinct(s: seq<Hex>)
  {
    forall h :: multiset(s)[h] <= 1
  }
}

=== FILE: mutation.dfy ===
/** The mutators of MapModel. Each checks its legality predicate and either fails,
    leaving the board as it was, or changes exactly one edge, vertex or the robber. */
module Mutation {
  import opened Results
  import opened Geometry
  import opened MapObjects
  import opened MapModel
  import opened Rules
  import opened Placement

  /** The longest-road computation is not part of this model: `count` stands for it,
      an arbitrary function of the board it is run on. */
  type RoadCounter = Board -> Option<Color>

  /** `r` equals `b` except, possibly, in its edges and its longest-road holder. */
  ghost predicate OnlyEdgesAndLongestRoad(b: Board, r: Board)
  {
    r.(edges := b.edges, longestRoad := b.longestRoad) == b
  }

  /** `r` equals `b` except, possibly, in its vertices and its longest-road holder. */
  ghost predicate OnlyVerticesAndLongestRoad(b: Board, r: Board)
  {
    r.(vertices := b.vertices, longestRoad := b.longestRoad) == b
  }

  /** PlaceRoad: puts a road of colour `c` between `p1` and `p2`, then recounts the longest road. */
  function PlaceRoad(b: Board, p1: Coordinate, p2: Coordinate, c: Color, count: RoadCounter): (r: Result<Board>)
    ensures r.Ok? <==> CanPlaceRoad(b, p1, p2, c)
    ensures r.Err? ==> r.error == RoadNotAllowed
    ensures r.Ok? ==>
      && OnlyEdgesAndLongestRoad(b, r.value)
      && r.value.edges.Keys == b.edges.Keys
      && (forall k :: k in b.edges && k != Key(p1, p2) ==> r.value.edges[k] == b.edges[k])
      && r.value.edges[Key(p1, p2)].road == Some(c)
      && r.value.edges[Key(p1, p2)].start == b.edges[Key(p1, p2)].start
      && r.value.edges[Key(p1, p2)].end == b.edges[Key(p1, p2)].end
      && r.value.longestRoad == count(r.value.(longestRoad := b.longestRoad))
  {
    if !CanPlaceRoad(b, p1, p2, c) then Err(RoadNotAllowed)
    else
      var k := Key(p1, p2);
      var built := b.(edges := b.edges[k := b.edges[k].(road := Some(c))]);
      Ok(built.(longestRoad := count(built)))
  }

  /** PlaceSettlement: puts a settlement of colour `c` on `p`, then recounts the longest road. */
  function PlaceSettlement(b: Board, p: Coordinate, c: Color, count: RoadCounter): (r: Result<Board>)
    ensures r.Ok? <==> CanPlaceSettlement(b, p, c)
    ensures r.Err? ==> r.error == SettlementNotAllowed
    ensures r.Ok? ==>
      && OnlyVerticesAndLongestRoad(b, r.value)
      && r.value.vertices.Keys == b.vertices.Keys
      && (forall q :: q in b.vertices && q != p ==> r.value.vertices[q] == b.vertices[q])
      && b.vertices[p].Empty? && r.value.vertices[p] == Settlement(c)
      && r.value.longestRoad == count(r.value.(longestRoad := b.longestRoad))
  {
    if !CanPlaceSettlement(b, p, c) then Err(SettlementNotAllowed)
    else
      var built := b.(vertices := b.vertices[p := Settlement(c)]);
      Ok(built.(longestRoad := count(built)))
  }

  /** PlaceCity: upgrades `c`'s settlement on `p`; the longest road is not recounted. */
  function PlaceCity(b: Board, p: Coordinate, c: Color): (r: Result<Board>)
    ensures r.Ok? <==> CanPlaceCity(b, p, c)
    ensures r.Err? ==> r.error == CityNotAllowed
    ensures r.Ok? ==>
      && r.value.(vertices := b.vertices) == b
      && r.value.vertices.Keys == b.vertices.Keys
      && (forall q :: q in b.vertices && q != p ==> r.value.vertices[q] == b.vertices[q])
      && b.vertices[p] == Settlement(c) && r.value.vertices[p] == City(c)
  {
    if !CanPlaceCity(b, p, c) then Err(CityNotAllowed)
    else Ok(b.(vertices := b.vertices[p := City(c)]))
  }

  /** PlaceRobber: moves (or first places) the robber onto the hex at `p`. Unlike
      CanPlaceRobber it does not refuse the hex the robber already stands on. */
  function PlaceRobber(b: Board, p: Coordinate): (r: Result<Board>)
    ensures p !in b.hexes ==> r == Err(NotFound)
    ensures p in b.hexes && b.hexes[p] == Water ==> r == Err(RobberInWater)
    ensures r.Ok? <==> p in b.hexes && b.hexes[p] != Water
    ensures r.Ok? ==> IsRobberInitialized(r.value) && GetRobberLocation(r.value).point == p
    ensures r.Ok? ==> r.value.(robber := b.robber) == b
  {
    match GetHex(b, p)
    case Err(e) => Err(e)
    case Ok(hex) =>
      if hex.kind == Water then Err(RobberInWater)
      else Ok(b.(robber := Some(hex)))
  }

  // ---------------------------------------------------------------------------
  // Properties of the placement rules

  /** In setup a road is legal only beside a village of the caller's colour that no
      road touches yet; when the start vertex is the caller's but already has a road,
      the end vertex is never considered. */
  lemma SetupRoadNeedsFreshVillage(b: Board, p1: Coordinate, p2: Coordinate, c: Color)
    requires b.setup
    requires CanPlaceRoad(b, p1, p2, c)
    ensures var e := b.edges[Key(p1, p2)];
      || (Owns(b, e.start, c) && Clear(b, e.start))
      || (Owns(b, e.end, c) && Clear(b, e.end))
  {
  }

  lemma SetupStartVertexDecides(b: Board, p1: Coordinate, p2: Coordinate, c: Color)
    requires b.setup && ContainsEdge(b, p1, p2)
    requires Owns(b, b.edges[Key(p1, p2)].start, c) && !Clear(b, b.edges[Key(p1, p2)].start)
    ensures !CanPlaceRoad(b, p1, p2, c)
  {
  }

  /** Outside setup, when neither endpoint is the caller's, a road on a free edge is
      legal exactly when an endpoint that is empty or the caller's touches a road of
      the caller's colour. */
  lemma RoadRuleOutsideSetup(b: Board, p1: Coordinate, p2: Coordinate, c: Color)
    requires !b.setup && ContainsEdge(b, p1, p2) && b.edges[Key(p1, p2)].road.None?
    requires var e := b.edges[Key(p1, p2)];
      e.start in b.vertices && e.end in b.vertices && !Owns(b, e.start, c) && !Owns(b, e.end, c)
    ensures var e := b.edges[Key(p1, p2)];
      CanPlaceRoad(b, p1, p2, c) <==>
        (OpenTo(b, e.start, c) && Fed(b, e.start, c)) || (OpenTo(b, e.end, c) && Fed(b, e.end, c))
  {
  }

  /** The edge handler finds an edge from its endpoints in either order. */
  lemma RoadOrderIrrelevant(b: Board, p1: Coordinate, p2: Coordinate, c: Color)
    ensures CanPlaceRoad(b, p1, p2, c) == CanPlaceRoad(b, p2, p1, c)
  {
    KeySymmetric(p1, p2);
  }

  /** The distance rule: no settlement next to any piece. */
  lemma DistanceRule(b: Board, p: Coordinate, q: Coordinate, c: Color)
    requires Adjacent(b, p, q) && b.vertices[q].Occupied()
    ensures !CanPlaceSettlement(b, p, c)
  {
  }

  // ---------------------------------------------------------------------------
  // Properties of the mutators

  /** A placed road is permanent: no road of any colour may go on that edge again. */
  lemma RoadIsPermanent(b: Board, p1: Coordinate, p2: Coordinate, c: Color, count: RoadCounter, c': Color)
    requires PlaceRoad(b, p1, p2, c, count).Ok?
    ensures var b' := PlaceRoad(b, p1, p2, c, count).value;
      !CanPlaceRoad(b', p1, p2, c') && !CanPlaceRoad(b', p2, p1, c')
  {
    KeySymmetric(p1, p2);
  }

  /** In setup, the edges beside a settlement just placed are open to its owner's road. */
  lemma SetupSettlementOpensRoads(b: Board, p: Coordinate, q: Coordinate, c: Color, count: RoadCounter)
    requires WellFormed(b) && b.setup
    requires PlaceSettlement(b, p, c, count).Ok?
    requires Adjacent(b, p, q)
    ensures CanPlaceRoad(PlaceSettlement(b, p, c, count).value, p, q, c)
  {
    var b' := PlaceSettlement(b, p, c, count).value;
    var k := Key(p, q);
    assert k in b.edges && b.edges[k].road.None?;
    var e := b.edges[k];
    assert k == Key(e.start, e.end);
    assert Clear(b', p) by {
      forall q' | Adjacent(b', p, q')
        ensures Key(p, q') in b'.edges && b'.edges[Key(p, q')].road.None?
      {
        assert Adjacent(b, p, q');
      }
    }
    if e.start == p {
      assert Owns(b', e.start, c);
    } else {
      assert e.start == q && e.end == p;
      assert !Owns(b', e.start, c);
      assert Owns(b', e.end, c);
    }
    assert EndpointRule(b', e, c);
  }

  /** A settlement, once placed, can be upgraded to a city by its owner. */
  lemma SettlementCanBecomeCity(b: Board, p: Coordinate, c: Color, count: RoadCounter)
    requires PlaceSettlement(b, p, c, count).Ok?
    ensures CanPlaceCity(PlaceSettlement(b, p, c, count).value, p, c)
  {
  }

  /** A city is final: no colour may build a city or settlement on it again. */
  lemma CityIsFinal(b: Board, p: Coordinate, c: Color, c': Color)
    requires PlaceCity(b, p, c).Ok?
    ensures !CanPlaceCity(PlaceCity(b, p, c).value, p, c')
    ensures !CanPlaceSettlement(PlaceCity(b, p, c).value, p, c')
  {
  }

  /** PlaceRobber succeeds where CanPlaceRobber holds and, beyond it, only on the
      robber's own hex; afterwards the robber may not stay put. */
  lemma RobberPlacementAgrees(b: Board, p: Coordinate)
    requires WellFormed(b) && IsRobberInitialized(b) && p in b.hexes
    ensures PlaceRobber(b, p).Ok? <==> CanPlaceRobber(b, p) || b.robber == Some(Hex(p, b.hexes[p]))
    ensures PlaceRobber(b, p).Ok? ==> !CanPlaceRobber(PlaceRobber(b, p).value, p)
  {
  }

  /** On a new board in setup, any vertex joined by an edge to each of its
      neighbours takes a first settlement of any colour. */
  lemma FirstSettlementOnNewBoard(g: Grid, vs: map<Coordinate, Piece>, es: map<EdgeKey, Edge>, p: Coordinate, c: Color)
    requires forall q :: q in vs ==> vs[q].Empty?
    requires forall k :: k in es ==> es[k].road.None? && k == Key(es[k].start, es[k].end)
    requires p in vs
    requires forall q :: q in vs && q in VertexCandidates(g, p) ==> Key(p, q) in es
    ensures CanPlaceSettlement(SetupPhase(NewBoard(g, vs, es), true), p, c)
  {
  }
}

=== FILE: objects.dfy ===
/** The primitives stored on the board. */
module MapObjects {
  import opened Results
  import opened Geometry

  /** A player's colour; the enumeration's constants are not part of this model. */
  datatype Color = Color(index: nat)

  datatype HexType = Forest | Hills | Mountains | Pasture | Field | Desert | Water

  /** The trade kind of a port; its constants are not part of this model. */
  datatype PortType = PortType(index: nat)

  /** What stands on a vertex. */
  datatype Piece = Empty | Settlement(color: Color) | City(color: Color)
  {
    predicate Occupied() { !Empty? }

    predicate OwnedBy(c: Color) { !Empty? && color == c }
  }

  datatype Hex = Hex(point: Coordinate, kind: HexType)

  datatype Vertex = Vertex(point: Coordinate, piece: Piece)

  /** An edge keeps the orientation it was created with; `road` is its road, if any. */
  datatype Edge = Edge(start: Coordinate, end: Coordinate, road: Option<Color>)

  /** A port sits on the edge `start`-`end` next to the hex at `hex`. */
  datatype Port = Port(kind: PortType, start: Coordinate, end: Coordinate, hex: Coordinate)

  /** One payout of a dice roll: a hex's resource to the owner of a piece on its corner. */
  datatype Transaction = Transaction(hexType: HexType, piece: Piece)
}

=== FILE: pips.dfy ===
/** The dice-value index of MapModel (its "pips"): for each roll, the hexes that produce. */
module Pips {
  import opened Results
  import opened Geometry
  import opened MapObjects
  import opened MapModel
  import Placement

  /** List.remove(Object): drops the first occurrence of `h`. */
  function RemoveFirst(l: seq<Hex>, h: Hex): (r: seq<Hex>)
    requires h in l
    ensures |r| == |l| - 1
    ensures multiset(r) == multiset(l) - multiset{h}
  {
    assert l == [l[0]] + l[1..];
    if l[0] == h then l[1..]
    else [l[0]] + RemoveFirst(l[1..], h)
  }

  /** `l` with every occurrence of `h` dropped, the rest in order. */
  function Without(l: seq<Hex>, h: Hex): seq<Hex>
  {
    if l == [] then []
    else (if l[0] == h then [] else [l[0]]) + Without(l[1..], h)
  }

  lemma {:induction false} WithoutCounts(l: seq<Hex>, h: Hex)
    ensures multiset(Without(l, h))[h] == 0
    ensures forall x :: x != h ==> multiset(Without(l, h))[x] == multiset(l)[x]
  {
    if l != [] {
      assert l == [l[0]] + l[1..];
      WithoutCounts(l[1..], h);
    }
  }

  lemma {:induction false} WithoutAbsent(l: seq<Hex>, h: Hex)
    requires h !in l
    ensures Without(l, h) == l
  {
    if l != [] {
      WithoutAbsent(l[1..], h);
    }
  }

  lemma {:induction false} WithoutRemoveFirst(l: seq<Hex>, h: Hex)
    requires h in l
    ensures Without(RemoveFirst(l, h), h) == Without(l, h)
  {
    if l[0] != h {
      assert h in l[1..];
      WithoutRemoveFirst(l[1..], h);
      assert RemoveFirst(l, h) == [l[0]] + RemoveFirst(l[1..], h);
      assert ([l[0]] + RemoveFirst(l[1..], h))[1..] == RemoveFirst(l[1..], h);
    }
  }

  lemma {:induction false} WithoutConcat(l: seq<Hex>, m: seq<Hex>, h: Hex)
    ensures Without(l + m, h) == Without(l, h) + Without(m, h)
  {
    if l == [] {
      assert l + m == m;
    } else {
      var head := if l[0] == h then [] else [l[0]];
      assert (l + m)[0] == l[0];
      assert (l + m)[1..] == l[1..] + m;
      WithoutConcat(l[1..], m, h);
      calc {
        Without(l + m, h);
        head + Without(l[1..] + m, h);
        head + (Without(l[1..], h) + Without(m, h));
        (head + Without(l[1..], h)) + Without(m, h);
      }
    }
  }

  /** The list update of PlacePip: when `h` is listed it is removed and PlacePip
      runs again (which then finds it absent); otherwise it is appended. Whatever
      the list held, this leaves `h` listed once, at the end, and every other hex
      where it was. */
  function PipList(l: seq<Hex>, h: Hex): (r: seq<Hex>)
    ensures r == Without(l, h) + [h]
    decreases |l|
  {
    if h in l then
      WithoutRemoveFirst(l, h);
      PipList(RemoveFirst(l, h), h)
    else
      WithoutAbsent(l, h);
      l + [h]
  }

  /** Running the update twice is the same as running it once. */
  lemma PipListIdempotent(l: seq<Hex>, h: Hex)
    ensures PipList(PipList(l, h), h) == PipList(l, h)
  {
    WithoutConcat(Without(l, h), [h], h);
    assert Without([h], h) == [];
    assert h !in Without(l, h) by {
      WithoutCounts(l, h);
    }
    WithoutAbsent(Without(l, h), h);
  }

  lemma PipListCounts(l: seq<Hex>, h: Hex)
    ensures multiset(PipList(l, h))[h] == 1
    ensures forall x :: x != h ==> multiset(PipList(l, h))[x] == multiset(l)[x]
    ensures PipList(l, h)[|PipList(l, h)| - 1] == h
  {
    WithoutCounts(l, h);
  }

  /** The list a dice value currently has, empty when the value has none. */
  function Listed(b: Board, value: int): seq<Hex>
  {
    if value in b.values then b.values[value] else []
  }

  /** PlacePip: records that the hex at `p` produces on `value`. Values outside
      2..12 are ignored (7 is accepted); a missing hex is an error. */
  function PlacePip(b: Board, value: int, p: Coordinate): (r: Result<Board>)
    ensures value < 2 || value > 12 ==> r == Ok(b)
    ensures 2 <= value <= 12 && p !in b.hexes ==> r == Err(NotFound)
    ensures 2 <= value <= 12 && p in b.hexes ==>
      && r.Ok?
      && r.value.(values := b.values) == b
      && r.value.values.Keys == b.values.Keys + {value}
      && (forall v :: v in b.values && v != value ==> r.value.values[v] == b.values[v])
      && multiset(r.value.values[value])[Hex(p, b.hexes[p])] == 1
      && (forall x :: x != Hex(p, b.hexes[p]) ==>
            multiset(r.value.values[value])[x] == multiset(Listed(b, value))[x])
  {
    if value < 2 || value > 12 then Ok(b)
    else
      match GetHex(b, p)
      case Err(e) => Err(e)
      case Ok(hex) =>
        PipListCounts(Listed(b, value), hex);
        Ok(b.(values := b.values[value := PipList(Listed(b, value), hex)]))
  }

  /** Recording the same value on the same hex twice changes nothing more: the
      second call keeps the hex listed once rather than removing it. */
  lemma PlacePipIdempotent(b: Board, value: int, p: Coordinate)
    requires PlacePip(b, value, p).Ok?
    ensures PlacePip(PlacePip(b, value, p).value, value, p) == PlacePip(b, value, p)
  {
    if 2 <= value <= 12 {
      var hex := Hex(p, b.hexes[p]);
      var l := PipList(Listed(b, value), hex);
      var once := b.(values := b.values[value := l]);
      assert PlacePip(b, value, p) == Ok(once);
      assert Listed(once, value) == l;
      assert PlacePip(once, value, p) == Ok(once.(values := once.values[value := PipList(l, hex)]));
      PipListIdempotent(Listed(b, value), hex);
      assert PipList(l, hex) == l;
      assert once.values[value := l] == once.values;
    }
  }

  /** 7 is not filtered out: a hex recorded for 7 is listed for 7. */
  lemma SevenIsRecorded(b: Board, p: Coordinate)
    requires p in b.hexes
    ensures Hex(p, b.hexes[p]) in PlacePip(b, 7, p).value.values[7]
  {
  }

  /** PlacePip does not consult CanPlacePip: a desert or water hex takes a value too. */
  lemma PipIgnoresCanPlacePip(b: Board, value: int, p: Coordinate)
    requires 2 <= value <= 12 && p in b.hexes && b.hexes[p] in {Desert, Water}
    ensures !Placement.CanPlacePip(b, p)
    ensures PlacePip(b, value, p).Ok?
    ensures Hex(p, b.hexes[p]) in PlacePip(b, value, p).value.values[value]
  {
  }

  /** Each hex is listed under at most one dice value. */
  ghost predicate SingleValued(b: Board)
  {
    forall v, w, h :: v in b.values && w in b.values && h in b.values[v] && h in b.values[w] ==> v == w
  }

  /** PlacePip only looks for the hex in the list of the value being recorded, so
      giving a hex a second value leaves it listed under both. */
  lemma HexUnderTwoValues(b: Board, v1: int, v2: int, p: Coordinate)
    requires p in b.hexes && 2 <= v1 <= 12 && 2 <= v2 <= 12 && v1 != v2
    ensures var r := PlacePip(PlacePip(b, v1, p).value, v2, p);
      && r.Ok?
      && Hex(p, b.hexes[p]) in r.value.values[v1]
      && Hex(p, b.hexes[p]) in r.value.values[v2]
      && !SingleValued(r.value)
  {
    var hex := Hex(p, b.hexes[p]);
    var once := PlacePip(b, v1, p).value;
    var twice := PlacePip(once, v2, p).value;
    assert hex in once.values[v1];
    assert twice.values[v1] == once.values[v1];
    assert hex in twice.values[v2];
  }

  /** Drops `h` from the list of every value, keeping every value. */
  function Unlisted(values: map<int, seq<Hex>>, h: Hex): (r: map<int, seq<Hex>>)
    ensures r.Keys == values.Keys
    ensures forall v :: v in r ==> h !in r[v]
    ensures forall v, x :: v in r && x != h ==> multiset(r[v])[x] == multiset(values[v])[x]
  {
    var r := map v | v in values :: Without(values[v], h);
    forall v | v in r
      ensures h !in r[v]
      ensures forall x :: x != h ==> multiset(r[v])[x] == multiset(values[v])[x]
    {
      WithoutCounts(values[v], h);
    }
    r
  }

  /** PlacePip as its "simply changing the value" comment describes it: the hex
      is taken off any other value's list before it is recorded for `value`. */
  function PlacePipExclusive(b: Board, value: int, p: Coordinate): (r: Result<Board>)
    ensures value < 2 || value > 12 ==> r == Ok(b)
    ensures 2 <= value <= 12 && p !in b.hexes ==> r == Err(NotFound)
    ensures 2 <= value <= 12 && p in b.hexes ==>
      && r.Ok?
      && r.value.(values := b.values) == b
      && r.value.values.Keys == b.values.Keys + {value}
      && multiset(r.value.values[value])[Hex(p, b.hexes[p])] == 1
      && (forall v :: v in r.value.values && v != value ==> Hex(p, b.hexes[p]) !in r.value.values[v])
      && (forall v, x :: v in r.value.values && x != Hex(p, b.hexes[p]) ==>
            multiset(r.value.values[v])[x] == multiset(Listed(b, v))[x])
  {
    if value < 2 || value > 12 then Ok(b)
    else
      match GetHex(b, p)
      case Err(e) => Err(e)
      case Ok(hex) =>
        PipListCounts(Listed(b, value), hex);
        Ok(b.(values := Unlisted(b.values, hex)[value := PipList(Listed(b, value), hex)]))
  }

  /** The corrected update keeps every hex under at most one value. */
  lemma ExclusiveKeepsSingleValued(b: Board, value: int, p: Coordinate)
    requires SingleValued(b) && PlacePipExclusive(b, value, p).Ok?
    ensures SingleValued(PlacePipExclusive(b, value, p).value)
  {
    if 2 <= value <= 12 {
      var r := PlacePipExclusive(b, value, p).value;
      var hex := Hex(p, b.hexes[p]);
      forall v, w, h | v in r.values && w in r.values && h in r.values[v] && h in r.values[w]
        ensures v == w
      {
        if h != hex {
          assert multiset(r.values[v])[h] == multiset(Listed(b, v))[h];
          assert multiset(r.values[w])[h] == multiset(Listed(b, w))[h];
          assert h in Listed(b, v) && h in Listed(b, w);
        }
      }
    }
  }
}

=== FILE: placement.dfy ===
/** The legality predicates of MapModel, written the way the board evaluates them:
    walking the neighbour and edge lists in order, with a failed handler lookup
    (a thrown MapException) turning the whole predicate `false`. CanPlaceRoad and
    CanPlaceSettlement are proved equal to their declarative rules in module Rules;
    CanPlaceCity, CanPlaceRobber and CanPlacePip state their rule in their own
    contracts. */
module Placement {
  import opened Results
  import opened Geometry
  import opened MapObjects
  import opened MapModel
  import opened Rules

  /** Whether one of the edges `es` carries a road of colour `c`. */
  function AnyRoadOf(es: seq<Edge>, c: Color): (r: bool)
    ensures r <==> exists i :: 0 <= i < |es| && es[i].road == Some(c)
  {
    if es == [] then false
    else if es[0].road == Some(c) then true
    else
      var rest := AnyRoadOf(es[1..], c);
      assert forall i :: 1 <= i < |es| ==> es[i] == es[1..][i - 1];
      rest
  }

  /** The road test of RoadsSatisfyRoadPlacement on one endpoint. */
  function HasRoadOf(b: Board, p: Coordinate, c: Color): (r: bool)
    ensures r <==> Fed(b, p, c)
  {
    var es := GetIncidentEdges(b, p);
    assert forall q :: Adjacent(b, p, q) && Key(p, q) in b.edges ==> b.edges[Key(p, q)] in es;
    assert forall i :: 0 <= i < |es| ==> es[i] in es;
    AnyRoadOf(es, c)
  }

  /** The loop of IsGoodSetup over the neighbours `ns`: every edge to them exists
      and carries no road. */
  function NoRoadTo(b: Board, p: Coordinate, ns: seq<Vertex>): (r: bool)
    ensures r <==> forall i :: 0 <= i < |ns| ==>
      Key(p, ns[i].point) in b.edges && b.edges[Key(p, ns[i].point)].road.None?
  {
    if ns == [] then true
    else
      var k := Key(p, ns[0].point);
      if k !in b.edges then false
      else if b.edges[k].road.Some? then false
      else
        var rest := NoRoadTo(b, p, ns[1..]);
        assert forall i :: 1 <= i < |ns| ==> ns[i] == ns[1..][i - 1];
        rest
  }

  /** IsGoodSetup: no road touches the vertex at `p` yet. */
  function IsGoodSetup(b: Board, p: Coordinate): (r: bool)
    ensures r <==> Clear(b, p)
  {
    var ns := GetNeighbours(b, p);
    var r := NoRoadTo(b, p, ns);
    assert forall q :: Adjacent(b, p, q) ==> Vertex(q, b.vertices[q]) in ns;
    r
  }

  /** VillagesSatisfyRoadPlacement: an endpoint of `e`, tried start first, holds a
      piece of colour `c` (and, in setup, no road touches it). A missing endpoint
      vertex is an error. */
  function VillagesSatisfyRoadPlacement(b: Board, e: Edge, c: Color): (r: Result<bool>)
    ensures r.Err? <==> e.start !in b.vertices || (!Owns(b, e.start, c) && e.end !in b.vertices)
    ensures r == Ok(true) <==>
      || (Owns(b, e.start, c) && (b.setup ==> Clear(b, e.start)))
      || (e.start in b.vertices && !Owns(b, e.start, c) && Owns(b, e.end, c) && (b.setup ==> Clear(b, e.end)))
  {
    if e.start !in b.vertices then Err(NotFound)
    else if b.vertices[e.start].OwnedBy(c) then
      Ok(!(b.setup && !IsGoodSetup(b, e.start)))
    else if e.end !in b.vertices then Err(NotFound)
    else if b.vertices[e.end].OwnedBy(c) then
      Ok(!(b.setup && !IsGoodSetup(b, e.end)))
    else Ok(false)
  }

  /** RoadsSatisfyRoadPlacement: an endpoint of `e` that is empty or `c`'s own,
      tried start first, already touches a road of colour `c`. */
  function RoadsSatisfyRoadPlacement(b: Board, e: Edge, c: Color): (r: Result<bool>)
    ensures r == Ok(true) <==>
      || (OpenTo(b, e.start, c) && Fed(b, e.start, c))
      || (e.start in b.vertices && OpenTo(b, e.end, c) && Fed(b, e.end, c))
    ensures r.Err? <==>
      e.start !in b.vertices || (!(OpenTo(b, e.start, c) && Fed(b, e.start, c)) && e.end !in b.vertices)
  {
    if e.start !in b.vertices then Err(NotFound)
    else if OpenTo(b, e.start, c) && HasRoadOf(b, e.start, c) then Ok(true)
    else if e.end !in b.vertices then Err(NotFound)
    else Ok(OpenTo(b, e.end, c) && HasRoadOf(b, e.end, c))
  }

  /** CanPlaceRoad: whether a road of colour `c` may go between `p1` and `p2`. */
  function CanPlaceRoad(b: Board, p1: Coordinate, p2: Coordinate, c: Color): (r: bool)
    ensures !ContainsEdge(b, p1, p2) ==> !r
    ensures ContainsEdge(b, p1, p2) && b.edges[Key(p1, p2)].road.Some? ==> !r
    ensures r <==> RoadLegal(b, p1, p2, c)
  {
    if Key(p1, p2) !in b.edges then false
    else
      var e := b.edges[Key(p1, p2)];
      if e.road.Some? then false
      else
        match VillagesSatisfyRoadPlacement(b, e, c)
        case Err(_) => false
        case Ok(true) => true
        case Ok(false) =>
          if b.setup then false
          else
            match RoadsSatisfyRoadPlacement(b, e, c)
            case Err(_) => false
            case Ok(ok) => ok
  }

  /** The neighbour loop of CanPlaceSettlement over `ns`: `None` when it returns
      `false` early (an occupied neighbour, a missing edge, or in setup a road),
      otherwise whether some edge to them carries a `c` road outside setup. */
  function ScanNeighbours(b: Board, p: Coordinate, c: Color, ns: seq<Vertex>): (r: Option<bool>)
    ensures r.Some? <==> forall i :: 0 <= i < |ns| ==>
      && ns[i].piece.Empty?
      && Key(p, ns[i].point) in b.edges
      && (b.setup ==> b.edges[Key(p, ns[i].point)].road.None?)
    ensures r == Some(true) <==>
      && r.Some?
      && !b.setup
      && exists i :: 0 <= i < |ns| && Key(p, ns[i].point) in b.edges && b.edges[Key(p, ns[i].point)].road == Some(c)
  {
    if ns == [] then Some(false)
    else
      var k := Key(p, ns[0].point);
      var rest := ScanNeighbours(b, p, c, ns[1..]);
      assert forall i :: 1 <= i < |ns| ==> ns[i] == ns[1..][i - 1];
      if ns[0].piece.Occupied() then None
      else if k !in b.edges then None
      else if !b.setup && b.edges[k].road == Some(c) then
        (if rest.None? then None else Some(true))
      else if b.setup && b.edges[k].road.Some? then None
      else rest
  }

  /** CanPlaceSettlement: whether a settlement of colour `c` may go on `p`. */
  function CanPlaceSettlement(b: Board, p: Coordinate, c: Color): (r: bool)
    ensures p !in b.vertices || b.vertices[p].Occupied() ==> !r
    ensures r <==> SettlementLegal(b, p, c)
  {
    if p !in b.vertices || b.vertices[p].Occupied() then false
    else
      var ns := GetNeighbours(b, p);
      var scan := ScanNeighbours(b, p, c, ns);
      assert forall q :: Adjacent(b, p, q) ==> Vertex(q, b.vertices[q]) in ns;
      match scan
      case None => false
      case Some(satisfied) => satisfied || b.setup
  }

  /** CanPlaceCity: a city is only ever an upgrade of the caller's own settlement. */
  function CanPlaceCity(b: Board, p: Coordinate, c: Color): (r: bool)
    ensures r <==> p in b.vertices && b.vertices[p] == Settlement(c)
    ensures p in b.vertices && b.vertices[p].City? ==> !r
    ensures p in b.vertices && b.vertices[p].Settlement? && b.vertices[p].color != c ==> !r
  {
    p in b.vertices && b.vertices[p].Settlement? && b.vertices[p].color == c
  }

  /** CanPlaceRobber: the robber may move to an existing land hex it is not on.
      The source dereferences the robber once the hex is found, so the robber
      must already stand somewhere. */
  function CanPlaceRobber(b: Board, p: Coordinate): (r: bool)
    requires p in b.hexes ==> IsRobberInitialized(b)
    ensures p !in b.hexes ==> !r
    ensures r <==> p in b.hexes && b.hexes[p] != Water && b.robber != Some(Hex(p, b.hexes[p]))
  {
    if p !in b.hexes then false
    else
      var hex := Hex(p, b.hexes[p]);
      if b.robber.value == hex then false
      else hex.kind != Water
  }

  /** CanPlacePip: dice values only go on hexes that produce. */
  function CanPlacePip(b: Board, p: Coordinate): (r: bool)
    ensures r <==> p in b.hexes && b.hexes[p] !in {Water, Desert}
  {
    if p !in b.hexes then false
    else b.hexes[p] != Water && b.hexes[p] != Desert
  }
}

=== FILE: queries.dfy ===
/** The derived queries of MapModel: ports a colour can trade through, the
    resources around a vertex, the payouts of a dice roll. */
module Queries {
  import opened Results
  import opened Geometry
  import opened MapObjects
  import opened MapModel
  import opened Rules

  /** A port is reachable by `c` when `c` has a piece on an endpoint of its edge. */
  predicate Reaches(b: Board, pt: Port, c: Color)
  {
    Owns(b, pt.start, c) || Owns(b, pt.end, c)
  }

  /** Both endpoint vertices of the port's edge exist. */
  predicate Anchored(b: Board, pt: Port)
  {
    pt.start in b.vertices && pt.end in b.vertices
  }

  /** The loop of GetPorts(color) over `ports`. Both endpoint vertices are fetched
      before either is tested, and a missing one ends the whole loop. */
  function PortsOf(b: Board, ports: seq<Port>, c: Color): (r: seq<PortType>)
    ensures |r| <= |ports|
    ensures forall t :: t in r ==> exists i :: 0 <= i < |ports| && ports[i].kind == t && Reaches(b, ports[i], c)
    ensures (forall i :: 0 <= i < |ports| ==> Anchored(b, ports[i])) ==>
      forall i :: 0 <= i < |ports| && Reaches(b, ports[i], c) ==> ports[i].kind in r
  {
    if ports == [] then []
    else
      var pt := ports[0];
      var rest := PortsOf(b, ports[1..], c);
      assert forall i :: 1 <= i < |ports| ==> ports[i] == ports[1..][i - 1];
      if !Anchored(b, pt) then []
      else if Reaches(b, pt, c) then [pt.kind] + rest
      else rest
  }

  /** GetPorts(color): the kinds of the ports colour `c` can trade through. */
  function GetPorts(b: Board, c: Color): (r: seq<PortType>)
    ensures forall t :: t in r ==> exists pt :: pt in b.ports && pt.kind == t && Reaches(b, pt, c)
    ensures (forall pt :: pt in b.ports ==> Anchored(b, pt)) ==>
      forall pt :: pt in b.ports && Reaches(b, pt, c) ==> pt.kind in r
  {
    PortsOf(b, b.ports, c)
  }

  /** A port whose edge lacks an endpoint vertex hides every port after it. */
  lemma {:induction false} PortsStopAtMissingVertex(b: Board, ports: seq<Port>, c: Color, i: nat)
    requires i < |ports| && !Anchored(b, ports[i])
    ensures PortsOf(b, ports, c) == PortsOf(b, ports[..i], c)
  {
    if i > 0 {
      assert ports[1..][i - 1] == ports[i];
      PortsStopAtMissingVertex(b, ports[1..], c, i - 1);
      var pre := ports[..i];
      assert pre[0] == ports[0];
      assert pre[1..] == ports[1..][..i - 1];
    }
  }

  /** The kinds of the hexes the board holds at the positions `qs`, in order: one
      entry for each position that holds a hex. */
  function HexTypesAt(hexes: map<Coordinate, HexType>, qs: seq<Coordinate>): (r: seq<HexType>)
    ensures |r| <= |qs|
    ensures forall k :: k in r <==> exists q :: q in qs && q in hexes && hexes[q] == k
  {
    if qs == [] then []
    else
      var n := |qs| - 1;
      var init := HexTypesAt(hexes, qs[..n]);
      assert forall q :: q in qs <==> q in qs[..n] || q == qs[n] by {
        assert qs == qs[..n] + [qs[n]];
      }
      init + (if qs[n] in hexes then [hexes[qs[n]]] else [])
  }

  /** The indices of the positions among `qs` that hold a hex of kind `k`. */
  ghost function KindPositions(hexes: map<Coordinate, HexType>, qs: seq<Coordinate>, k: HexType): set<int>
  {
    set i | 0 <= i < |qs| && qs[i] in hexes && hexes[qs[i]] == k
  }

  /** HexTypesAt lists a kind once for every position of `qs` holding a hex of that kind. */
  lemma {:induction false} HexTypesAtCounts(hexes: map<Coordinate, HexType>, qs: seq<Coordinate>, k: HexType)
    ensures multiset(HexTypesAt(hexes, qs))[k] == |KindPositions(hexes, qs, k)|
    decreases |qs|
  {
    if qs != [] {
      var n := |qs| - 1;
      HexTypesAtCounts(hexes, qs[..n], k);
      var last := if qs[n] in hexes then [hexes[qs[n]]] else [];
      assert HexTypesAt(hexes, qs) == HexTypesAt(hexes, qs[..n]) + last;
      assert multiset(HexTypesAt(hexes, qs)) == multiset(HexTypesAt(hexes, qs[..n])) + multiset(last);
      KindPositionsLast(hexes, qs, k);
    }
  }

  /** Extending `qs` by one position adds that position's index exactly when it holds a `k`. */
  lemma KindPositionsLast(hexes: map<Coordinate, HexType>, qs: seq<Coordinate>, k: HexType)
    requires qs != []
    ensures var n := |qs| - 1;
      |KindPositions(hexes, qs, k)|
      == |KindPositions(hexes, qs[..n], k)| + (if qs[n] in hexes && hexes[qs[n]] == k then 1 else 0)
  {
    var n := |qs| - 1;
    var before := KindPositions(hexes, qs[..n], k);
    var all := KindPositions(hexes, qs, k);
    if qs[n] in hexes && hexes[qs[n]] == k {
      assert all == before + {n};
    } else {
      assert all == before;
    }
  }

  /** GetResources: the kinds of the up to three hexes touching the vertex at `p`. */
  function GetResources(b: Board, p: Coordinate): (r: seq<HexType>)
    ensures |r| <= 3
    ensures forall k :: k in r <==>
      exists q :: q in ResourceCandidates(b.grid, p) && q in b.hexes && b.hexes[q] == k
  {
    HexTypesAt(b.hexes, ResourceCandidates(b.grid, p))
  }

  /** A vertex collects one resource of a kind for every touching hex of that kind. */
  lemma GetResourcesCounts(b: Board, p: Coordinate, k: HexType)
    ensures multiset(GetResources(b, p))[k] == |KindPositions(b.hexes, ResourceCandidates(b.grid, p), k)|
  {
    HexTypesAtCounts(b.hexes, ResourceCandidates(b.grid, p), k);
  }

  /** One payout per occupied vertex among `vs`, paying `kind`. */
  function PayoutsAt(kind: HexType, vs: seq<Vertex>): (r: seq<Transaction>)
    ensures |r| <= |vs|
    ensures forall t :: t in r <==> exists v :: v in vs && v.piece.Occupied() && t == Transaction(kind, v.piece)
  {
    if vs == [] then []
    else
      var n := |vs| - 1;
      var init := PayoutsAt(kind, vs[..n]);
      assert forall v :: v in vs <==> v in vs[..n] || v == vs[n] by {
        assert vs == vs[..n] + [vs[n]];
      }
      init + (if vs[n].piece.Empty? then [] else [Transaction(kind, vs[n].piece)])
  }

  /** The indices of the vertices among `vs` whose piece earns the payout `t` from a hex of `kind`. */
  ghost function Earners(kind: HexType, vs: seq<Vertex>, t: Transaction): set<int>
  {
    set i | 0 <= i < |vs| && Earns(kind, vs[i], t)
  }

  /** The vertex `v` is occupied, and its piece draws the payout `t` from a hex of `kind`. */
  predicate Earns(kind: HexType, v: Vertex, t: Transaction)
  {
    v.piece.Occupied() && Transaction(kind, v.piece) == t
  }

  /** PayoutsAt lists a payout once for every occupied vertex that earns it. */
  lemma {:induction false} PayoutsAtCounts(kind: HexType, vs: seq<Vertex>, t: Transaction)
    ensures multiset(PayoutsAt(kind, vs))[t] == |Earners(kind, vs, t)|
    decreases |vs|
  {
    if vs != [] {
      var n := |vs| - 1;
      PayoutsAtCounts(kind, vs[..n], t);
      var last := if vs[n].piece.Empty? then [] else [Transaction(kind, vs[n].piece)];
      assert PayoutsAt(kind, vs) == PayoutsAt(kind, vs[..n]) + last;
      assert multiset(PayoutsAt(kind, vs)) == multiset(PayoutsAt(kind, vs[..n])) + multiset(last);
      EarnersLast(kind, vs, t);
    }
  }

  /** Extending `vs` by one vertex adds its index exactly when it earns `t`. */
  lemma EarnersLast(kind: HexType, vs: seq<Vertex>, t: Transaction)
    requires vs != []
    ensures var n := |vs| - 1;
      |Earners(kind, vs, t)|
      == |Earners(kind, vs[..n], t)| + (if Earns(kind, vs[n], t) then 1 else 0)
  {
    var n := |vs| - 1;
    var before := Earners(kind, vs[..n], t);
    var all := Earners(kind, vs, t);
    if Earns(kind, vs[n], t) {
      assert all == before + {n};
    } else {
      assert all == before;
    }
  }

  /** The payouts of one hex: one per occupied corner. */
  function HexPayouts(b: Board, h: Hex): seq<Transaction>
  {
    PayoutsAt(h.kind, GetCorners(b, h.point))
  }

  /** The payouts of the hexes `hs`, hex by hex. */
  function PayoutsOf(b: Board, hs: seq<Hex>): seq<Transaction>
  {
    if hs == [] then [] else PayoutsOf(b, hs[..|hs| - 1]) + HexPayouts(b, hs[|hs| - 1])
  }

  /** A payout of the hex list is exactly a payout of one of its hexes. */
  lemma {:induction false} PayoutsOfMembers(b: Board, hs: seq<Hex>)
    ensures forall t :: t in PayoutsOf(b, hs) <==> exists i :: 0 <= i < |hs| && t in HexPayouts(b, hs[i])
    decreases |hs|
  {
    if hs != [] {
      var n := |hs| - 1;
      var init := hs[..n];
      PayoutsOfMembers(b, init);
      assert hs == init + [hs[n]];
      PayoutsOfSnoc(b, init, hs[n]);
      forall t
        ensures t in PayoutsOf(b, hs) <==> exists i :: 0 <= i < |hs| && t in HexPayouts(b, hs[i])
      {
        if exists i :: 0 <= i < |hs| && t in HexPayouts(b, hs[i]) {
          var i :| 0 <= i < |hs| && t in HexPayouts(b, hs[i]);
          if i < n {
            assert init[i] == hs[i];
          }
        }
      }
    }
  }

  /** The number of payouts `t` the hexes `hs` owe: per hex, one for each occupied
      corner that earns `t`. */
  ghost function PayoutCount(b: Board, hs: seq<Hex>, t: Transaction): nat
  {
    if hs == [] then 0
    else PayoutCount(b, hs[..|hs| - 1], t) + |Earners(hs[|hs| - 1].kind, GetCorners(b, hs[|hs| - 1].point), t)|
  }

  /** Appending a hex appends its payouts. */
  lemma PayoutsOfSnoc(b: Board, hs: seq<Hex>, h: Hex)
    ensures PayoutsOf(b, hs + [h]) == PayoutsOf(b, hs) + HexPayouts(b, h)
  {
    assert (hs + [h])[..|hs|] == hs;
  }

  /** The payouts of two hex lists in a row are the payouts of the joined list. */
  lemma {:induction false} PayoutsOfConcat(b: Board, hs1: seq<Hex>, hs2: seq<Hex>)
    ensures PayoutsOf(b, hs1 + hs2) == PayoutsOf(b, hs1) + PayoutsOf(b, hs2)
    decreases |hs2|
  {
    if hs2 == [] {
      assert hs1 + hs2 == hs1;
    } else {
      var n := |hs2| - 1;
      var init := hs2[..n];
      var h := hs2[n];
      assert hs2 == init + [h];
      assert hs1 + hs2 == (hs1 + init) + [h];
      PayoutsOfSnoc(b, hs1 + init, h);
      PayoutsOfSnoc(b, init, h);
      PayoutsOfConcat(b, hs1, init);
      AppendAssociative(PayoutsOf(b, hs1), PayoutsOf(b, init), HexPayouts(b, h));
    }
  }

  lemma AppendAssociative(x: seq<Transaction>, y: seq<Transaction>, z: seq<Transaction>)
    ensures (x + y) + z == x + (y + z)
  {
  }

  /** PayoutsOf lists each payout as often as the hexes owe it. */
  lemma {:induction false} PayoutsOfCounts(b: Board, hs: seq<Hex>, t: Transaction)
    ensures multiset(PayoutsOf(b, hs))[t] == PayoutCount(b, hs, t)
    decreases |hs|
  {
    if hs != [] {
      var n := |hs| - 1;
      PayoutsOfCounts(b, hs[..n], t);
      PayoutsAtCounts(hs[n].kind, GetCorners(b, hs[n].point), t);
      assert multiset(PayoutsOf(b, hs)) == multiset(PayoutsOf(b, hs[..n])) + multiset(HexPayouts(b, hs[n]));
    }
  }

  /** GetTransactions: every piece on a corner of a hex listed for the roll collects
      that hex's resource; an unknown roll yields nothing. */
  function GetTransactions(b: Board, roll: int): (r: seq<Transaction>)
    ensures roll !in b.values ==> r == []
    ensures forall t :: t in r ==> t.piece.Occupied()
    ensures forall t :: t in r <==>
      && roll in b.values
      && exists h, q :: h in b.values[roll] && q in CornerCandidates(b.grid, h.point) && q in b.vertices
           && b.vertices[q].Occupied() && t == Transaction(h.kind, b.vertices[q])
  {
    if roll !in b.values then []
    else
      var hs := b.values[roll];
      var r := PayoutsOf(b, hs);
      PayoutsOfMembers(b, hs);
      assert forall h, q :: h in hs && q in CornerCandidates(b.grid, h.point) && q in b.vertices ==>
        Vertex(q, b.vertices[q]) in GetCorners(b, h.point);
      r
  }

  /** A roll pays each transaction as often as the hexes listed for it owe it. */
  lemma GetTransactionsCounts(b: Board, roll: int, t: Transaction)
    ensures multiset(GetTransactions(b, roll))[t] == (if roll in b.values then PayoutCount(b, b.values[roll], t) else 0)
  {
    if roll in b.values {
      PayoutsOfCounts(b, b.values[roll], t);
    }
  }

  /** GetOccupiedVertices: the colours with a piece on a corner of the hex at `hp`;
      none for a hex the board lacks. */
  function GetOccupiedVertices(b: Board, hp: Coordinate): (r: set<Color>)
    ensures hp !in b.hexes ==> r == {}
    ensures forall c :: c in r <==>
      hp in b.hexes && exists q :: q in CornerCandidates(b.grid, hp) && Owns(b, q, c)
  {
    if hp !in b.hexes then {}
    else
      var corners := GetCorners(b, hp);
      assert forall q :: q in CornerCandidates(b.grid, hp) && q in b.vertices ==> Vertex(q, b.vertices[q]) in corners;
      set v | v in corners && v.piece.Occupied() :: v.piece.color
  }
}

=== FILE: results.dfy ===
/** Failure-carrying results of the board's operations. */
module Results {

  /** A value that may be absent (the source's `null`). */
  datatype Option<+T> = None | Some(value: T)

  /** The causes for which the board throws a MapException. */
  datatype MapError =
    | NotFound              // a handler was asked for a coordinate it does not hold
    | RoadNotAllowed        // PlaceRoad while CanPlaceRoad is false
    | SettlementNotAllowed  // PlaceSettlement while CanPlaceSettlement is false
    | CityNotAllowed        // PlaceCity while CanPlaceCity is false
    | RobberInWater         // PlaceRobber on a water hex
    | NoLongestRoad         // GetLongestRoadColor before anyone holds it

  /** Either the operation's value or the error it throws. */
  datatype Result<+T> = Ok(value: T) | Err(error: MapError)
}

=== FILE: rules.dfy ===
/** The placement rules of the board, stated declaratively over the board's maps.

    These are the reference definitions against which the iterative predicates
    of module Placement are proved. "Neighbour" is the board's own relation
    `Adjacent`; an edge to a neighbour that the edge handler lacks makes the
    source's lookups throw, which its predicates turn into `false`. */
module Rules {
  import opened Results
  import opened Geometry
  import opened MapObjects
  import opened MapModel

  /** The vertex at `p` holds a settlement or city of colour `c`. */
  predicate Owns(b: Board, p: Coordinate, c: Color)
  {
    p in b.vertices && b.vertices[p].OwnedBy(c)
  }

  /** The vertex at `p` exists and is empty or holds a piece of colour `c`. */
  predicate OpenTo(b: Board, p: Coordinate, c: Color)
  {
    p in b.vertices && (b.vertices[p].Empty? || b.vertices[p].color == c)
  }

  /** Every neighbour of `p` is joined to it by an edge that carries no road. */
  ghost predicate Clear(b: Board, p: Coordinate)
  {
    forall q :: Adjacent(b, p, q) ==> Key(p, q) in b.edges && b.edges[Key(p, q)].road.None?
  }

  /** Some edge joining `p` to a neighbour carries a road of colour `c`. */
  ghost predicate Fed(b: Board, p: Coordinate, c: Color)
  {
    exists q :: Adjacent(b, p, q) && Key(p, q) in b.edges && b.edges[Key(p, q)].road == Some(c)
  }

  /** The endpoint test for a road of colour `c` on the edge `e`: the start vertex
      decides when `c` owns it; otherwise the end vertex decides when `c` owns it;
      otherwise, outside the setup phase only, a `c` road must already touch an
      endpoint that is empty or `c`'s own. In setup an owned endpoint counts only
      when no road touches it yet. */
  ghost predicate EndpointRule(b: Board, e: Edge, c: Color)
  {
    && e.start in b.vertices
    && if Owns(b, e.start, c) then (b.setup ==> Clear(b, e.start))
       else
         && e.end in b.vertices
         && if Owns(b, e.end, c) then (b.setup ==> Clear(b, e.end))
            else
              && !b.setup
              && ((OpenTo(b, e.start, c) && Fed(b, e.start, c)) || (OpenTo(b, e.end, c) && Fed(b, e.end, c)))
  }

  /** A road of colour `c` may go on the edge between `p1` and `p2`. */
  ghost predicate RoadLegal(b: Board, p1: Coordinate, p2: Coordinate, c: Color)
  {
    && Key(p1, p2) in b.edges
    && b.edges[Key(p1, p2)].road.None?
    && EndpointRule(b, b.edges[Key(p1, p2)], c)
  }

  /** A settlement of colour `c` may go on the vertex at `p`: it is empty, so are
      all its neighbours (the distance rule), every neighbour is joined to it by an
      edge, and in setup no road touches it while outside setup a `c` road does. */
  ghost predicate SettlementLegal(b: Board, p: Coordinate, c: Color)
  {
    && p in b.vertices
    && b.vertices[p].Empty?
    && (forall q :: Adjacent(b, p, q) ==> b.vertices[q].Empty? && Key(p, q) in b.edges)
    && (b.setup ==> Clear(b, p))
    && (!b.setup ==> Fed(b, p, c))
  }
}
